=== FILE: README.md ===
# Behavioural-cloning driver: checkpoint fix-up and telemetry control loop

This project models the two pieces of decision logic in a small driver
stack for a self-driving-car simulator, and proves properties of them in
Dafny 4.11.

* **Checkpoint fix-up** (`convert_model.py`, `fix_model`). The model
  configuration stored in a Keras checkpoint is a JSON tree whose
  `config.layers` list holds one record per layer (`class_name`, `name`,
  `config`). The fix-up deletes `batch_shape` from the configuration of
  every `InputLayer` and `groups` from that of every `Conv2D`, raises a
  `modified` flag when it deleted anything, and writes the configuration
  back only when the flag is set. JSON objects are modelled as ordered
  lists of entries, because `json.loads` keeps key order and `json.dumps`
  writes it back in that order; the deletion is proved to remove exactly
  one entry in place.
* **Telemetry control loop** (`drive.py`). Each inbound event becomes the
  list of `steer` commands the server emits for it, or an exception that
  escapes the handler. A `connect` event and a null (None) or empty telemetry
  payload get the neutral command (0, 0). A telemetry payload has its speed
  converted with `float`. Its image string loses any data-URI header
  (`split(',')[1]`). The image then goes to a collaborator that decodes,
  preprocesses and predicts. The command carries the prediction clipped
  into [-1, 1] and the throttle `1 - speed / 10`, which is not clamped. A
  failure of the collaborator yields the neutral command.

Files: `options.dfy` (Option), `config_tree.dfy` (JSON values, ordered
objects, key removal), `convert_model.dfy` (the fix-up),
`py_str.dfy` (Python `str.split` / `join` on one character),
`drive.dfy` (commands, handlers, runs of events).

Collaborators that are not part of this model appear as function
parameters. `parse` stands for Python's `float(str)`. `infer` stands for
base64 decoding, `PIL.Image.open`, the OpenCV preprocessing and
`model.predict`. `dumps` stands for JSON serialisation of the configuration
with a given layer list.

Two details of the code that the model keeps:
- Not every telemetry event gets a reply. `float(data['speed'])`,
  `data['image']` and the `',' in image_data` test run before the `try`
  (drive.py:34-40). A missing key, a speed that does not convert, or an
  image that is a number, a boolean or null therefore raises out of the
  handler, and nothing is sent. `OnTelemetry` and `RunCadence` state
  exactly when a reply happens.
- `split(',')[1]` keeps only the segment between the first and the second
  comma (drive.py:39-40), so anything after a second comma is dropped too.
  `StripDataUri` models that.

## Model

| member | source | states |
|---|---|---|
| ConfigTree.RemoveKey | convert_model.py:24-32 | after `del`, the key is gone and every other key is still present; a missing key leaves the object unchanged; the dictionary invariant (distinct keys) is kept |
| ConfigTree.RemoveKeyKeepsValues | convert_model.py:26 | after `del`, every other key reads back the value it had |
| ConfigTree.RemoveIsDeleteAt | convert_model.py:26 | on a dictionary, the removal deletes exactly the one entry holding the key, at its position; all other entries stay in their order |
| ConvertModel.FixLayer | convert_model.py:23-33 | class and name are kept; an InputLayer loses exactly `batch_shape` and a Conv2D exactly `groups`; layers of other classes keep those keys; the result has no incompatible key; a layer with nothing to remove is unchanged |
| ConvertModel.FixLayerKeepsValues | convert_model.py:22-33 | every key the fix-up does not target reads back with its original value |
| ConvertModel.StaleByClass | convert_model.py:24-30 | the two guards together fire exactly when some key of the layer's configuration is one its class must not have |
| ConvertModel.FixOne | convert_model.py:23-33 | one loop iteration yields the fixed layer and reports a change exactly when the layer was stale |
| ConvertModel.FixLayers | convert_model.py:19-33 | the loop keeps the layer count and order, leaves no stale layer, and its `modified` flag is true iff some InputLayer had `batch_shape` or some Conv2D had `groups`; an unmodified list is returned unchanged |
| ConvertModel.RewriteStep | convert_model.py:22-33 | one more pass of the loop appends the fixed layer and sets the flag iff the flag was already set or that layer was stale |
| ConvertModel.UnmodifiedUnchanged | convert_model.py:19-33 | when no layer is flagged, the rewritten list equals the input |
| ConvertModel.FixModelConfig | convert_model.py:19-37 | the stored configuration is replaced by the serialised fixed layers when `modified` holds, and is left byte-for-byte as it was otherwise |
| ConvertModel.RewriteIdempotent | convert_model.py:22-33 | fixing the fixed layers changes nothing and reports no modification |
| ConvertModel.RewriteDeletesInPlace | convert_model.py:22-33 | length, class and name are kept; a stale layer's configuration loses exactly one incompatible entry, where it stood; any other layer is unchanged |
| PyStr.Split | drive.py:40 | `str.split(',')` gives at least one piece, no piece contains the separator, there is more than one piece iff the string contains it, and the first piece is the prefix up to the first separator |
| PyStr.JoinSplit | drive.py:40 | joining the pieces of a split with the separator gives back the original string |
| PyStr.SplitJoin | drive.py:40 | splitting the join of separator-free pieces gives back the pieces |
| PyStr.SplitAfter | drive.py:40 | a separator-free prefix followed by the separator becomes the first piece, and the remainder splits independently |
| Drive.Truthy | drive.py:33 | `if data:` is false exactly for a null (None) payload and for the empty dictionary |
| Drive.ToFloat | drive.py:34 | `float(data['speed'])` fails exactly for null and for strings the parser rejects; strings convert to what `parse` returns, numbers to themselves and booleans to 1 or 0 |
| Drive.StripDataUri | drive.py:38-40 | a string without a comma passes unchanged; otherwise the result is the segment that starts right after the first comma and runs to the next comma or the end; the result never contains a comma |
| Drive.StripDataUriOfDataUri | drive.py:39-40 | a data URI `header,payload` is reduced to its payload |
| Drive.Throttle | drive.py:50 | the throttle law against `speed_limit` = 10: speed is recovered as `(1 - throttle) * 10`; speed 0 gives 1 and speed 10 gives 0; the throttle is negative iff speed exceeds 10; it lies in [0, 1] for speeds in [0, 10] |
| Drive.Clip | drive.py:53 | `np.clip`: the result lies in [lo, hi], equals the input when it is in range, and is the nearer bound otherwise |
| Drive.Handle | drive.py:31-65 | dispatch to the registered handler: an event raises exactly when it is a telemetry event whose fields read before the `try` are unusable; otherwise exactly one command is emitted, with steering in [-1, 1]; a connect gets the neutral command |
| Drive.Send | drive.py:69-74 | sending appends exactly one command carrying the given steering and throttle; what was sent before is untouched |
| Drive.OnConnect | drive.py:64-67 | a connect emits exactly one neutral command (0, 0) |
| Drive.OnTelemetry | drive.py:32-62 | a null (None) or empty payload emits one neutral command; the handler raises, emitting nothing, iff the speed or image read outside the `try` is unusable; otherwise exactly one command is emitted with steering in [-1, 1]; a collaborator failure emits the neutral command |
| Drive.SuccessCommand | drive.py:42-56 | when the collaborator predicts `p`, the one command has the throttle of the linear law at the reported speed and steering `p` if it is in [-1, 1], else the nearer bound |
| Drive.ReplyShape | drive.py:32-67 | one event gets exactly one command iff it is a connect or a well-formed telemetry message, and that command's steering lies in [-1, 1] |
| Drive.RunCadence | drive.py:32-67 | over any run of events, the number of commands sent equals the number of answered events, and every command sent has steering in [-1, 1] |
| Drive.OneReplyPerEvent | drive.py:32-67 | when every event is a connect or a well-formed telemetry message, exactly one command is sent per event |
| Drive.RunAppend | drive.py:32-67 | the handlers keep no state between events: the replies to two runs back to back are the concatenated replies to each |

## Left out

- File handling in `convert_model.py`: the temporary copy, the h5py attribute access, the final remove and rename, and the `__main__` wrapper that prints errors. These are file I/O. The configuration is taken as already parsed, and serialisation is the `dumps` parameter.
- JSON text parsing, and the UTF-8 encoding and decoding of the attribute. These are library code, so the layer list is an input.
- ConvertModel.Layer: layer records missing one of `class_name`, `name` or `config` are not modelled, because the `Layer` record always has all three. In the source, a missing `class_name` raises `KeyError` at convert_model.py:24 for every record. A missing `config` raises only for an InputLayer (line 24) or a Conv2D (line 30), because `and` short-circuits. A missing `name` raises only for a Conv2D that has `groups` (line 31). Any other such record, for example a Dense layer without `name` or `config`, passes through unchanged. The model can express neither the raising case nor the pass-through case. Any other key of a layer record is not represented either; the source leaves such keys untouched.
- ConfigTree.Json: numbers are reals, so a parsed tree does not tell a JSON integer such as `24` from a float such as `24.0`. `json.dumps` (convert_model.py:37) would write that difference back. The fix-up never reads values, so no contract depends on it.
- The `print` logging in both files, and the `str()` rendering of the two values in the `steer` message. They are formatting with no contract.
- `img_preprocessing`, base64 decoding, `PIL.Image.open` and `model.predict` (drive.py:22-29, 43-49). They are foreign library calls over pixel arrays, so together they form the `infer` collaborator.
- Python's `float(str)`: the `parse` collaborator.
- Model loading, the warm-up prediction, the exit code on a load failure, and the socketio/eventlet/Flask server on port 4567 (drive.py:76-91). These are runtime and network plumbing. Emission is modelled as appending to the list of sent commands.
- Drive.Send: the model assumes `sio.emit` never raises. In the source, an emit that raised inside the `try` would be followed by a second, neutral emit.
- Drive.Run: assumes the server goes on serving after a handler raised. The socket library's handling of the exception is not part of this model. Events without a handler, such as disconnect, are not modelled.
- Drive.Value: telemetry fields holding JSON arrays or objects are not modelled. Only scalar values are. Such an image would pass the comma test when it has no "," element and fail inside the `try` (drive.py:43), which sends the neutral command.
- Drive.Payload: a `telemetry` event sent with no data argument at all is handled by the socket library, and is not modelled. The `NullData` case is an explicit null (`data is None`).
- Drive.Payload: a truthy `data` that is not a dictionary, such as a string or a list, is not modelled. The source raises on it at `data['speed']` (drive.py:34), and nothing is sent.
- Drive.Send: `sio.emit` is called without a recipient (drive.py:74), so every command goes to every connected client, and the `sid` argument is never used to address a reply; `connect` only logs it (drive.py:66). The model assumes one connected client, so `Run` is what that client receives.
- IEEE floating point: speed, throttle, steering and prediction are mathematical reals. NaN and infinity from `float` or from the network are outside the model.
- `model_create.py`: a fixed Keras layer declaration plus weight copying. Keras semantics are not part of this model.

=== FILE: config_tree.dfy ===
/** The parsed form of a Keras model configuration: JSON values whose
    objects keep their keys in insertion order, as Python dictionaries
    produced by json.loads do. */
module ConfigTree {
  import opened Options

  /** A JSON value. */
  datatype Json =
    | Null
    | Bool(b: bool)
    | Num(n: real)
    | Str(s: string)
    | Arr(items: seq<Json>)
    | Obj(fields: seq<Entry>)

  /** One key/value pair of a JSON object. */
  datatype Entry = Entry(key: string, value: Json)

  /** A JSON object, entries in insertion order. */
  type Config = seq<Entry>

  /** The keys present in an object (Python's `key in d`). */
  function Keys(c: Config): set<string>
  {
    if c == [] then {} else {c[0].key} + Keys(c[1..])
  }

  /** The Python dictionary invariant: no key occurs twice. */
  predicate DistinctKeys(c: Config)
  {
    c == [] || (c[0].key !in Keys(c[1..]) && DistinctKeys(c[1..]))
  }

  /** Python's `d.get(k)`: the value stored under `k`, if any. */
  function Lookup(c: Config, k: string): (r: Option<Json>)
    ensures r.None? <==> k !in Keys(c)
    ensures r.Some? ==> Entry(k, r.value) in c
  {
    if c == [] then None
    else if c[0].key == k then Some(c[0].value)
    else Lookup(c[1..], k)
  }

  lemma {:induction false} KeyAt(c: Config, i: nat)
    requires i < |c|
    ensures c[i].key in Keys(c)
  {
    if i > 0 {
      KeyAt(c[1..], i - 1);
    }
  }

  /** Python's `del d[k]` behind an `if k in d` guard: every entry under
      `k` goes, every other entry stays, in its order. */
  function RemoveKey(c: Config, k: string): (r: Config)
    ensures Keys(r) == Keys(c) - {k}
    ensures k !in Keys(c) ==> r == c
    ensures DistinctKeys(c) ==> DistinctKeys(r)
    ensures |r| <= |c|
    decreases |c|
  {
    if c == [] then []
    else if c[0].key == k then RemoveKey(c[1..], k)
    else [c[0]] + RemoveKey(c[1..], k)
  }

  /** Every other key reads back the value it had. */
  lemma {:induction false} RemoveKeyKeepsValues(c: Config, k: string, other: string)
    requires other != k
    ensures Lookup(RemoveKey(c, k), other) == Lookup(c, other)
  {
    if c != [] {
      RemoveKeyKeepsValues(c[1..], k, other);
    }
  }

  /** On a dictionary, the removal deletes exactly the one entry that
      holds the key, at its position, and leaves every other entry in
      place: the rest of the object is unchanged, order included. */
  lemma {:induction false} RemoveIsDeleteAt(c: Config, k: string, i: nat)
    requires DistinctKeys(c)
    requires i < |c| && c[i].key == k
    ensures RemoveKey(c, k) == c[..i] + c[i + 1..]
  {
    if i == 0 {
      RemoveHead(c, k);
      assert c[..0] + c[1..] == c[1..];
    } else {
      KeyAt(c[1..], i - 1);
      RemoveIsDeleteAt(c[1..], k, i - 1);
      DeleteAtTail(c, i);
    }
  }

  lemma RemoveHead(c: Config, k: string)
    requires DistinctKeys(c) && c != [] && c[0].key == k
    ensures RemoveKey(c, k) == c[1..]
  {
  }

  /** Deleting at a position past the head keeps the head in front. */
  lemma DeleteAtTail(c: Config, i: nat)
    requires 0 < i < |c|
    ensures c[..i] + c[i + 1..] == [c[0]] + (c[1..][..i - 1] + c[1..][i..])
  {
    assert c[..i] == [c[0]] + c[1..][..i - 1];
    assert c[i + 1..] == c[1..][i..];
  }
}

=== FILE: convert_model.dfy ===
/** The compatibility fix-up of a saved Keras checkpoint
    (convert_model.py, fix_model): the layer list of the model
    configuration loses the `batch_shape` of every InputLayer and the
    `groups` of every Conv2D, and the stored configuration is rewritten
    only when one of those removals happened. */
module ConvertModel {
  import opened ConfigTree

  /** One entry of `config['layers']`. */
  datatype Layer = Layer(className: string, name: string, config: Config)

  const InputLayer: string := "InputLayer"
  const Conv2D: string := "Conv2D"
  const BatchShape: string := "batch_shape"
  const Groups: string := "groups"

  /** The keys newer Keras writes that the older loader rejects, by class. */
  function IncompatibleKeys(className: string): set<string>
  {
    if className == InputLayer then {BatchShape}
    else if className == Conv2D then {Groups}
    else {}
  }

  /** The layer carries a key its class must not have (see StaleByClass). */
  predicate Stale(l: Layer)
  {
    || (l.className == InputLayer && BatchShape in Keys(l.config))
    || (l.className == Conv2D && Groups in Keys(l.config))
  }

  /** The body of the loop for one layer: the two guarded removals, in
      the order the source performs them. */
  function FixLayer(l: Layer): (r: Layer)
    ensures r.className == l.className && r.name == l.name
    ensures Keys(r.config) == Keys(l.config) - IncompatibleKeys(l.className)
    ensures !Stale(r)
    ensures !Stale(l) ==> r == l
    ensures DistinctKeys(l.config) ==> DistinctKeys(r.config)
  {
    var afterInput :=
      if l.className == InputLayer && BatchShape in Keys(l.config)
      then l.(config := RemoveKey(l.config, BatchShape))
      else l;
    if afterInput.className == Conv2D && Groups in Keys(afterInput.config)
    then afterInput.(config := RemoveKey(afterInput.config, Groups))
    else afterInput
  }

  /** Every value the fix-up does not remove reads back unchanged. */
  lemma FixLayerKeepsValues(l: Layer, k: string)
    requires k !in IncompatibleKeys(l.className)
    ensures Lookup(FixLayer(l).config, k) == Lookup(l.config, k)
  {
    if l.className == InputLayer && BatchShape in Keys(l.config) {
      RemoveKeyKeepsValues(l.config, BatchShape, k);
    }
    if l.className == Conv2D && Groups in Keys(l.config) {
      RemoveKeyKeepsValues(l.config, Groups, k);
    }
  }

  /** The whole layer list after the loop. */
  function Rewrite(layers: seq<Layer>): seq<Layer>
  {
    seq(|layers|, i requires 0 <= i < |layers| => FixLayer(layers[i]))
  }

  /** What the `modified` flag is meant to record. */
  predicate Modified(layers: seq<Layer>)
  {
    exists i :: 0 <= i < |layers| && Stale(layers[i])
  }

  /** A layer is stale exactly when some key of its configuration is
      incompatible with its class. */
  lemma StaleByClass(l: Layer)
    ensures Stale(l) <==> exists k :: k in Keys(l.config) && k in IncompatibleKeys(l.className)
  {
    if Stale(l) {
      var k := if l.className == InputLayer then BatchShape else Groups;
      assert k in Keys(l.config) && k in IncompatibleKeys(l.className);
    }
  }

  /** One iteration of the loop, written as the statements it runs: the
      two guarded `del` statements, each setting the flag when it fires.
      FixLayer states the same step as an expression; keeping this
      statement form lets the flag be tied to the guards that set it, and
      the contract proves the two forms agree. */
  method FixOne(l: Layer) returns (r: Layer, touched: bool)
    ensures r == FixLayer(l)
    ensures touched <==> Stale(l)
    ensures !touched ==> r == l
  {
    r := l;
    touched := false;
    if r.className == InputLayer && BatchShape in Keys(r.config) {
      r := r.(config := RemoveKey(r.config, BatchShape));
      touched := true;
    }
    if r.className == Conv2D && Groups in Keys(r.config) {
      r := r.(config := RemoveKey(r.config, Groups));
      touched := true;
    }
  }

  /** The loop over `config['layers']`, with its `modified` flag. */
  method FixLayers(layers: seq<Layer>) returns (fixed: seq<Layer>, modified: bool)
    ensures |fixed| == |layers|
    ensures forall i :: 0 <= i < |layers| ==> fixed[i] == FixLayer(layers[i])
    ensures forall i :: 0 <= i < |fixed| ==> !Stale(fixed[i])
    ensures modified <==> Modified(layers)
    ensures !modified ==> fixed == layers
  {
    fixed := [];
    modified := false;
    var i := 0;
    while i < |layers|
      invariant 0 <= i <= |layers|
      invariant fixed == Rewrite(layers[..i])
      invariant modified == Modified(layers[..i])
    {
      var layer, touched := FixOne(layers[i]);
      RewriteStep(layers, i);
      modified := modified || touched;
      fixed := fixed + [layer];
      i := i + 1;
    }
    assert layers[..i] == layers;
    UnmodifiedUnchanged(layers);
  }

  /** One more layer through the loop: its fixed form is appended and the
      flag picks up its staleness. */
  lemma RewriteStep(layers: seq<Layer>, i: nat)
    requires i < |layers|
    ensures Rewrite(layers[..i + 1]) == Rewrite(layers[..i]) + [FixLayer(layers[i])]
    ensures Modified(layers[..i + 1]) == (Modified(layers[..i]) || Stale(layers[i]))
  {
    var pre := layers[..i];
    var next := layers[..i + 1];
    assert forall j :: 0 <= j < i ==> next[j] == pre[j];
    assert next[i] == layers[i];
  }

  /** A list the fix-up does not flag comes out unchanged. */
  lemma UnmodifiedUnchanged(layers: seq<Layer>)
    ensures !Modified(layers) ==> Rewrite(layers) == layers
  {
  }

  /** The fix-up as a whole: `stored` is the `model_config` attribute as
      found, `layers` its parsed layer list, and `dumps` serialises the
      configuration with a given layer list in place of the old one. The
      attribute is replaced only when the loop changed something. */
  method FixModelConfig(stored: string, layers: seq<Layer>, dumps: seq<Layer> -> string)
    returns (written: string, modified: bool)
    ensures modified <==> Modified(layers)
    ensures !modified ==> written == stored
    ensures modified ==> written == dumps(Rewrite(layers))
  {
    var fixed;
    fixed, modified := FixLayers(layers);
    written := stored;
    assert fixed == Rewrite(layers);
    if modified {
      written := dumps(fixed);
    }
  }

  /** Running the fix-up on its own output changes nothing and reports
      no modification. */
  lemma RewriteIdempotent(layers: seq<Layer>)
    ensures Rewrite(Rewrite(layers)) == Rewrite(layers)
    ensures !Modified(Rewrite(layers))
  {
  }

  /** Nothing but the incompatible keys goes: the list keeps its length
      and order, each layer its class and name, and each configuration
      loses at most one entry, deleted where it stood. */
  lemma {:induction false} RewriteDeletesInPlace(layers: seq<Layer>, i: nat)
    requires i < |layers| && DistinctKeys(layers[i].config)
    ensures |Rewrite(layers)| == |layers|
    ensures Rewrite(layers)[i].className == layers[i].className
    ensures Rewrite(layers)[i].name == layers[i].name
    ensures !Stale(layers[i]) ==> Rewrite(layers)[i] == layers[i]
    ensures Stale(layers[i]) ==>
      exists j :: 0 <= j < |layers[i].config|
        && layers[i].config[j].key in IncompatibleKeys(layers[i].className)
        && Rewrite(layers)[i].config == layers[i].config[..j] + layers[i].config[j + 1..]
  {
    var l := layers[i];
    if Stale(l) {
      StaleByClass(l);
      var k :| k in Keys(l.config) && k in IncompatibleKeys(l.className);
      var j := IndexOfKey(l.config, k);
      RemoveIsDeleteAt(l.config, k, j);
      assert FixLayer(l).config == RemoveKey(l.config, k);
    }
  }

  /** Where a key sits in an object that has it. */
  function IndexOfKey(c: Config, k: string): (j: nat)
    requires k in Keys(c)
    ensures j < |c| && c[j].key == k
  {
    if c[0].key == k then 0 else 1 + IndexOfKey(c[1..], k)
  }
}

=== FILE: drive.dfy ===
/** The telemetry control loop of drive.py as a pure function per event:
    each inbound event maps to the steer commands the server emits for it,
    or to an exception that escapes the handler. Image decoding,
    preprocessing and the network's prediction are one collaborator,
    `infer`, that answers with a steering value or fails; Python's
    `float(str)` is the collaborator `parse`. */
module Drive {
  import opened Options
  import opened PyStr

  /** `speed_limit`: the speed at which the throttle law reaches zero. */
  const SpeedLimit: real := 10.0

  /** The payload of one outbound `steer` message. */
  datatype Command = Command(steering: real, throttle: real)

  /** The command sent on connect, on an empty payload and on failure. */
  const Neutral: Command := Command(0.0, 0.0)

  /** A scalar JSON value as a telemetry field may carry it. */
  datatype Value = VStr(s: string) | VNum(x: real) | VBool(b: bool) | VNull

  /** The `data` argument of the handler: null (None) or a dictionary. */
  datatype Payload = NullData | Dict(fields: map<string, Value>)

  /** What one handler invocation does: emit commands, or raise. */
  datatype Outcome = Handled(emitted: seq<Command>) | Raised

  /** One inbound event. */
  datatype Event = Connect | Telemetry(data: Payload)

  /** Python truthiness of `data`: None and the empty dictionary are false. */
  predicate Truthy(data: Payload)
    ensures Truthy(data) <==> data != NullData && data != Dict(map[])
  {
    data.Dict? && |data.fields| > 0
  }

  /** Python's `float(v)`: strings go through `parse`, numbers and booleans
      convert, None raises. */
  function ToFloat(v: Value, parse: string -> Option<real>): (r: Option<real>)
    ensures r.None? <==> v.VNull? || (v.VStr? && parse(v.s).None?)
    ensures v.VStr? ==> r == parse(v.s)
    ensures v.VNum? ==> r == Some(v.x)
    ensures v.VBool? ==> r == Some(if v.b then 1.0 else 0.0)
  {
    match v
    case VStr(s) => parse(s)
    case VNum(x) => Some(x)
    case VBool(b) => if b then Some(1.0) else Some(0.0)
    case VNull => None
  }

  /** The linear throttle law `1.0 - speed / speed_limit`, not clamped. */
  function Throttle(speed: real): (t: real)
    ensures speed == (1.0 - t) * SpeedLimit
    ensures speed == 0.0 ==> t == 1.0
    ensures speed == SpeedLimit ==> t == 0.0
    ensures t < 0.0 <==> speed > SpeedLimit
    ensures 0.0 <= speed <= SpeedLimit ==> 0.0 <= t <= 1.0
  {
    1.0 - speed / SpeedLimit
  }

  /** `np.clip(x, lo, hi)`, that is `min(max(x, lo), hi)`. */
  function Clip(x: real, lo: real, hi: real): (r: real)
    ensures lo <= hi ==> lo <= r <= hi
    ensures lo <= x <= hi ==> r == x
    ensures x < lo && lo <= hi ==> r == lo
    ensures x > hi ==> r == hi
  {
    var atLeast := if x < lo then lo else x;
    if atLeast > hi then hi else atLeast
  }

  /** The image string with its data-URI header dropped: when it holds a
      comma, only the piece after the first comma is kept (the second
      piece of `split(',')`), so anything after a second comma goes too;
      a string without commas passes unchanged. */
  function StripDataUri(s: string): (r: string)
    ensures ',' !in s ==> r == s
    ensures ',' !in r
    ensures ',' in s ==>
      var i := FirstIndex(s, ',');
      && r <= s[i + 1..]
      && (i + 1 + |r| == |s| || s[i + 1 + |r|] == ',')
  {
    if ',' in s then
      SplitAtFirst(s, ',');
      Split(s, ',')[1]
    else s
  }

  /** A data URI `header,payload` with a comma-free header and payload
      is reduced to its payload. */
  lemma StripDataUriOfDataUri(header: string, payload: string)
    requires ',' !in header && ',' !in payload
    ensures StripDataUri(header + [','] + payload) == payload
  {
    SplitAfter(header, payload, ',');
    SplitFree(payload, ',');
  }

  /** `send_control_message`: one `steer` message is appended to what
      the server has already emitted. */
  function Send(sent: seq<Command>, steering: real, throttle: real): (r: seq<Command>)
    ensures |r| == |sent| + 1
    ensures r[..|sent|] == sent
    ensures r[|sent|].steering == steering && r[|sent|].throttle == throttle
  {
    sent + [Command(steering, throttle)]
  }

  /** The `connect` handler. */
  function OnConnect(): (r: Outcome)
    ensures r == Handled([Neutral])
  {
    Handled(Send([], 0.0, 0.0))
  }

  /** The `telemetry` handler. Reading `speed` and `image` and testing
      the image for a comma happen before the `try`, so a missing key, a
      speed `float` rejects, or an image that is a number, a boolean or
      null escapes as an exception and nothing is emitted; inside the
      `try`, any failure of `infer` turns into the neutral command. */
  function OnTelemetry(data: Payload, parse: string -> Option<real>, infer: string -> Option<real>): (r: Outcome)
    ensures !Truthy(data) ==> r == Handled([Neutral])
    ensures r.Raised? <==> !WellFormed(data, parse)
    ensures r.Handled? ==> |r.emitted| == 1 && -1.0 <= r.emitted[0].steering <= 1.0
    ensures (Truthy(data) && WellFormed(data, parse) && infer(StripDataUri(data.fields["image"].s)).None?)
              ==> r == Handled([Neutral])
  {
    if !Truthy(data) then Handled(Send([], 0.0, 0.0))
    else if "speed" !in data.fields then Raised
    else
      match ToFloat(data.fields["speed"], parse)
      case None => Raised
      case Some(speed) =>
        if "image" !in data.fields || !data.fields["image"].VStr? then Raised
        else
          var imageData := StripDataUri(data.fields["image"].s);
          match infer(imageData)
          case None => Handled(Send([], 0.0, 0.0))
          case Some(prediction) =>
            var throttle := Throttle(speed);
            var steering := Clip(prediction, -1.0, 1.0);
            Handled(Send([], steering, throttle))
  }

  /** Dispatch by event type to the registered handler. */
  function Handle(e: Event, parse: string -> Option<real>, infer: string -> Option<real>): (r: Outcome)
    ensures r.Raised? <==> !Answered(e, parse)
    ensures r.Handled? ==> |r.emitted| == 1 && -1.0 <= r.emitted[0].steering <= 1.0
    ensures e.Connect? ==> r == Handled([Neutral])
  {
    match e
    case Connect => OnConnect()
    case Telemetry(data) => OnTelemetry(data, parse, infer)
  }

  /** Everything the server emits over a run of events; an event whose
      handler raised contributes nothing and serving goes on. */
  function Run(events: seq<Event>, parse: string -> Option<real>, infer: string -> Option<real>): seq<Command>
  {
    if events == [] then []
    else Reply(events[0], parse, infer) + Run(events[1..], parse, infer)
  }

  /** The commands one event gets back. */
  function Reply(e: Event, parse: string -> Option<real>, infer: string -> Option<real>): seq<Command>
  {
    var out := Handle(e, parse, infer);
    if out.Handled? then out.emitted else []
  }

  /** The fields the code outside the `try` reads are usable: an empty
      payload, or one whose speed converts and whose image is a string. */
  predicate WellFormed(data: Payload, parse: string -> Option<real>)
  {
    || !Truthy(data)
    || (&& "speed" in data.fields
        && ToFloat(data.fields["speed"], parse).Some?
        && "image" in data.fields
        && data.fields["image"].VStr?)
  }

  predicate Answered(e: Event, parse: string -> Option<real>)
  {
    e.Connect? || WellFormed(e.data, parse)
  }

  /** How many events of a run the server answers. */
  function CountAnswered(events: seq<Event>, parse: string -> Option<real>): (n: nat)
    ensures (forall i :: 0 <= i < |events| ==> Answered(events[i], parse)) ==> n == |events|
  {
    if events == [] then 0
    else (if Answered(events[0], parse) then 1 else 0) + CountAnswered(events[1..], parse)
  }

  /** On a well-formed payload whose image the collaborator accepts, the
      one command carries the prediction clipped into [-1, 1] and the
      throttle of the linear law at the reported speed. */
  lemma SuccessCommand(data: Payload, parse: string -> Option<real>, infer: string -> Option<real>)
    requires Truthy(data) && WellFormed(data, parse)
    requires infer(StripDataUri(data.fields["image"].s)).Some?
    ensures
      var speed := ToFloat(data.fields["speed"], parse).value;
      var p := infer(StripDataUri(data.fields["image"].s)).value;
      var r := OnTelemetry(data, parse, infer);
      && r.Handled? && |r.emitted| == 1
      && r.emitted[0].throttle == Throttle(speed)
      && (-1.0 <= p <= 1.0 ==> r.emitted[0].steering == p)
      && (p > 1.0 ==> r.emitted[0].steering == 1.0)
      && (p < -1.0 ==> r.emitted[0].steering == -1.0)
  {
  }

  /** Over any run of events, the server sends exactly one command per
      answered event and never a steering outside [-1, 1]. (The commands
      follow the order of the events by Run's definition; RunAppend
      states it.) */
  lemma {:induction false} RunCadence(events: seq<Event>, parse: string -> Option<real>, infer: string -> Option<real>)
    ensures |Run(events, parse, infer)| == CountAnswered(events, parse)
    ensures forall c :: c in Run(events, parse, infer) ==> -1.0 <= c.steering <= 1.0
  {
    if events != [] {
      RunCadence(events[1..], parse, infer);
      ReplyShape(events[0], parse, infer);
    }
  }

  /** An answered event gets one command with steering in [-1, 1]; any
      other event gets none. */
  lemma ReplyShape(e: Event, parse: string -> Option<real>, infer: string -> Option<real>)
    ensures |Reply(e, parse, infer)| == (if Answered(e, parse) then 1 else 0)
    ensures forall c :: c in Reply(e, parse, infer) ==> -1.0 <= c.steering <= 1.0
  {
  }

  /** When every event is a connect or a well-formed telemetry message,
      the simulator gets exactly one reply per event. */
  lemma {:induction false} OneReplyPerEvent(events: seq<Event>, parse: string -> Option<real>, infer: string -> Option<real>)
    requires forall i :: 0 <= i < |events| ==> Answered(events[i], parse)
    ensures |Run(events, parse, infer)| == |events|
  {
    RunCadence(events, parse, infer);
  }

  /** Handling keeps no state between events: the replies to two runs
      back to back are the replies to each run, concatenated. */
  lemma {:induction false} RunAppend(a: seq<Event>, b: seq<Event>, parse: string -> Option<real>, infer: string -> Option<real>)
    ensures Run(a + b, parse, infer) == Run(a, parse, infer) + Run(b, parse, infer)
  {
    if a == [] {
      assert a + b == b;
    } else {
      assert (a + b)[0] == a[0];
      assert (a + b)[1..] == a[1..] + b;
      RunAppend(a[1..], b, parse, infer);
    }
  }
}

=== FILE: options.dfy ===
/** The conventional optional value, used for dictionary lookups and for
    collaborators that either answer or raise. */
module Options {

  datatype Option<+T> = None | Some(value: T)
}

=== FILE: py_str.dfy ===
/** Python's `str.split(sep)` for a one-character separator, and the
    `sep.join` that undoes it. */
module PyStr {

  /** `s.split(sep)`: the maximal separator-free pieces of `s`, in order;
      there is always at least one piece, possibly empty. */
  function Split(s: string, sep: char): (parts: seq<string>)
    ensures |parts| >= 1
    ensures forall i :: 0 <= i < |parts| ==> sep !in parts[i]
    ensures |parts| > 1 <==> sep in s
    ensures parts[0] <= s
    ensures |parts[0]| < |s| ==> s[|parts[0]|] == sep
    decreases |s|
  {
    if s == [] then [[]]
    else
      var rest := Split(s[1..], sep);
      if s[0] == sep then [[]] + rest
      else [[s[0]] + rest[0]] + rest[1..]
  }

  /** `sep.join(parts)`. */
  function Join(parts: seq<string>, sep: char): string
  {
    if parts == [] then []
    else if |parts| == 1 then parts[0]
    else parts[0] + [sep] + Join(parts[1..], sep)
  }

  /** Joining the pieces gives back the string. */
  lemma {:induction false} JoinSplit(s: string, sep: char)
    ensures Join(Split(s, sep), sep) == s
    decreases |s|
  {
    if s != [] {
      var rest := Split(s[1..], sep);
      JoinSplit(s[1..], sep);
      if s[0] != sep && |rest| > 1 {
        assert rest == [rest[0]] + rest[1..];
        assert Join(rest, sep) == rest[0] + [sep] + Join(rest[1..], sep);
      }
    }
  }

  /** Splitting a separator-free string gives it back whole. */
  lemma SplitFree(a: string, sep: char)
    requires sep !in a
    ensures Split(a, sep) == [a]
  {
    var parts := Split(a, sep);
    assert |parts[0]| == |a|;
    assert parts[0] == a;
    assert |parts| == 1;
    assert parts == [parts[0]];
  }

  /** A separator-free prefix followed by a separator becomes the first
      piece, and the rest splits on its own. */
  lemma {:induction false} SplitAfter(a: string, b: string, sep: char)
    requires sep !in a
    ensures Split(a + [sep] + b, sep) == [a] + Split(b, sep)
    decreases |a|
  {
    var s := a + [sep] + b;
    if a == [] {
      assert s == [sep] + b && s[1..] == b;
      assert Split(s, sep) == [[]] + Split(b, sep);
    } else {
      assert s[0] == a[0] && a[0] != sep;
      assert s[1..] == a[1..] + [sep] + b;
      SplitAfter(a[1..], b, sep);
      var rest := Split(s[1..], sep);
      assert rest == [a[1..]] + Split(b, sep);
      assert rest[0] == a[1..] && rest[1..] == Split(b, sep);
      assert Split(s, sep) == [[a[0]] + rest[0]] + rest[1..];
      assert [a[0]] + a[1..] == a;
    }
  }

  /** Splitting the join of separator-free pieces gives the pieces back. */
  lemma {:induction false} SplitJoin(parts: seq<string>, sep: char)
    requires |parts| >= 1
    requires forall i :: 0 <= i < |parts| ==> sep !in parts[i]
    ensures Split(Join(parts, sep), sep) == parts
  {
    if |parts| == 1 {
      SplitFree(parts[0], sep);
    } else {
      SplitJoin(parts[1..], sep);
      SplitAfter(parts[0], Join(parts[1..], sep), sep);
    }
  }

  /** The first position of `c` in `s`. */
  function FirstIndex(s: string, c: char): (i: nat)
    requires c in s
    ensures i < |s| && s[i] == c && c !in s[..i]
  {
    if s[0] == c then 0
    else
      var i := 1 + FirstIndex(s[1..], c);
      assert s[..i] == [s[0]] + s[1..][..i - 1];
      i
  }

  /** The first piece ends at the first separator. */
  lemma SplitAtFirst(s: string, sep: char)
    requires sep in s
    ensures
      var i := FirstIndex(s, sep);
      Split(s, sep) == [s[..i]] + Split(s[i + 1..], sep)
  {
    var i := FirstIndex(s, sep);
    assert s == s[..i] + [sep] + s[i + 1..];
    SplitAfter(s[..i], s[i + 1..], sep);
  }
}
